=== FILE: README.md ===
# Rebuild-schedule settings of the Performance Monitor admin page

This project models the part of the plugin's admin settings page
(`admin/admin.php`, class `Admin`) that handles the user-index rebuild
schedule:

- `timeToSeconds` parses an `HH:MM` string into seconds since midnight or
  `false`;
- `formatTime` turns that time into the localised display used in the
  success notice;
- `sanitize_settings` is the settings sanitiser. It decodes the rebuild mode
  (`on`, `off`, `nowon`, `nowoff`, absent or anything else) and formats the
  time. It then calls the indexer: `rebuildNow`, then `enableAutoRebuild` or
  `disableAutoRebuild`. These calls are guarded by the object field
  `didAnyOperations`, because the platform may run the sanitiser twice for
  one submission. It adds `error` / `info` / `success` settings notices and
  returns the record with `nowon` and `nowoff` collapsed to `on` and `off`.

Layout:

- `wrappers.dfy` (module `Wrappers`): `Option`, standing for PHP's `int|false`
  and `string|false`.
- `rebuild_time.dfy` (module `RebuildTime`): the parser, an independent
  description of the accepted strings (`Clock`, a zero-padded `HH:MM`
  printer), and the two formatters.
- `admin.dfy` (module `AdminSettings`): decoding and normalising the
  submitted record. `Respond` / `Sanitize` are the specification of one
  sanitiser call as a value (`Outcome`: returned record, indexer calls,
  notices, local `$didAnOperation`). Class `Admin` holds the field
  `didAnyOperations`, the list of notices it has added, and a ghost log of
  indexer calls. Its method `SanitizeSettings` follows the PHP statement by
  statement and is proved to produce what `Sanitize` says.

Environment pieces are parameters:

- `localize: int -> Option<string>` is `wp_date` with the site's
  `time_format` in UTC. That call can return `false`.
- `throws: IndexerCall -> Option<string>` says which indexer call throws an
  `Exception`, and with which message.

Behaviour that follows the code rather than the intent one might read into
it:

- A malformed time does **not** give the "Incorrect time." notice.
  `formatTime` returns the raw string on a parse failure, so the `=== false`
  test (line 123) is reached only when `wp_date` itself fails. In the daily
  modes the sanitiser then calls `enableAutoRebuild(false)` (see Findings).
- The guard tests the field, not the local `$didAnOperation`. So a first
  `nowon` call makes **two** indexer calls, `rebuildNow` and then
  `enableAutoRebuild`, and `nowoff` makes `rebuildNow` and then
  `disableAutoRebuild`.
- The pattern `/^\d\d:\d\d$/` has no `D` modifier, so `$` also matches before
  one final newline: `"12:34\n"` is accepted as 45240 seconds.
- Minutes are not limited to 59. `"00:99"` is 5940 seconds. `"23:60"` is
  rejected because it adds up to a full day. An hour of 24 or more is always
  rejected.
- When an indexer call throws, the guard is still set, because
  `$didAnOperation` is assigned before the call. An error notice is added and
  the returned record is still normalised.

## Model

| member | source | states |
|---|---|---|
| RebuildTime.MatchesClockPattern | admin/admin.php:197 | the pattern `^\d\d:\d\d$` without the `D` modifier: two digits, colon, two digits, optionally one final newline; every matched string is ASCII |
| RebuildTime.FieldValue | admin/admin.php:198-199 | `intval` of a two-digit substring is a number in [0, 100), leading zeros read as decimal |
| RebuildTime.TimeToSeconds | admin/admin.php:195-209 | a returned value lies in [0, 86400), is a whole number of minutes, and comes only from a string matching the `\d\d:\d\d` pattern |
| RebuildTime.Pad2 | admin/admin.php:198-199 | two digits printed from a number below 100 read back (`intval` of the two-character substring) as that number |
| RebuildTime.Clock | admin/admin.php:197-199 | a printed `HH:MM` matches the pattern and its two fields read back as the hours and minutes |
| RebuildTime.PadOfField | admin/admin.php:198-199 | any two ASCII digits are the zero-padded printing of their `intval` value |
| RebuildTime.ClockRoundTrip | admin/admin.php:197-208 | parsing a printed `HH:MM` (with or without one trailing newline) gives hours*3600 + minutes*60 when that is below one day, and `false` otherwise |
| RebuildTime.AcceptedIsClock | admin/admin.php:197-202 | every accepted string is a printed `HH:MM`, possibly followed by one newline, and its value is hours*3600 + minutes*60 of its fields |
| RebuildTime.TimeToSecondsExactly | admin/admin.php:195-209 | `timeToSeconds(s) == n` if and only if `s` is two digits, colon, two digits (optionally a final newline), `n` = h*3600 + m*60 and `n` < 86400 |
| RebuildTime.ClockAccepted | admin/admin.php:198-201 | a clock face is accepted exactly when its hour is below 23, or it is 23 with minutes below 60; minutes up to 99 are accepted for earlier hours |
| RebuildTime.TimeToSecondsExamples | admin/admin.php:195-209 | "16:42" is 60120, "00:25" is 1500, "00:99" is 5940, "12:34\n" is 45240; "23:60", "24:00", "9:30" and "" are `false` |
| RebuildTime.FormatTime | admin/admin.php:183-188 | on a parse failure the raw input comes back (not `false`); `false` comes back only when the time parsed and the localised display failed |
| RebuildTime.FormatTimeChecked | admin/admin.php:178-188 | the documented formatter: `false` for every bogus time, and for every parsed time exactly the localised display of its seconds |
| RebuildTime.FormatTimeDiscrepancy | admin/admin.php:181-187 | the written and the documented formatter differ exactly on the times `timeToSeconds` rejects |
| AdminSettings.AutoRebuild | admin/admin.php:118 | the daily mode holds exactly when the flag is present and collapses to `on` (that is, it is `on` or `nowon`); an absent or unrecognised flag gives the disable branch |
| AdminSettings.NowRebuild | admin/admin.php:119 | the immediate mode holds exactly when the flag is present and normalisation changes it (that is, it is `nowon` or `nowoff`) |
| AdminSettings.RebuildTimeOf | admin/admin.php:120 | the submitted time when present; when absent, the empty string, which the parser rejects |
| AdminSettings.ScheduleCall | admin/admin.php:143-160 | the schedule call is never `rebuildNow`; it is `enableAutoRebuild` exactly in the daily modes, with the parsed seconds (or `false`) of the submitted time, and `disableAutoRebuild` otherwise |
| AdminSettings.Collapse | admin/admin.php:170-172 | the persisted flag is never `nowon` or `nowoff`: `nowon` becomes `on`, `nowoff` becomes `off`, anything else is kept |
| AdminSettings.Normalize | admin/admin.php:168-175 | the returned record has the same keys, every key other than `auto_rebuild` keeps its value, and `auto_rebuild` (when present) is collapsed |
| AdminSettings.NormalizeIdempotent | admin/admin.php:168-175 | normalising a normalised record changes nothing |
| AdminSettings.NormalizeKeepsSchedule | admin/admin.php:118-120 | a normalised record keeps its daily/never decision and its time, and never asks for an immediate rebuild |
| AdminSettings.Respond | admin/admin.php:115-175 | one call: the local flag is set exactly when an indexer call was made; with the guard set no call is made; with the guard clear and a working display, the calls are a prefix of the planned ones (`rebuildNow` exactly in the immediate modes, then the schedule call for the mode), and they stop short only at a call that threw; a `false` display returns the input unchanged with only "Incorrect time."; otherwise the record is normalised |
| AdminSettings.Sanitize | admin/admin.php:110-176 | one call with `formatTime` as written: it always reports a notice; with the guard set it calls nothing; a time the parser rejects, like any time whose display succeeds, makes the call act exactly when the guard was clear and return the normalised record |
| AdminSettings.SanitizeChecked | admin/admin.php:178-188 | one call with the documented `formatTime`: a rejected time gives only "Incorrect time.", no call, no guard change and the record as submitted; an accepted time gives the same outcome as the written code |
| AdminSettings.FirstCallSequence | admin/admin.php:118-160 | with the guard clear and neither planned call throwing: `nowon` gives rebuildNow then enable, `nowoff` rebuildNow then disable, `on` enable, anything else or absent disable; the notices are the info notice for the immediate modes, then "scheduled for" with the formatted time in the daily modes or "disabled" otherwise |
| AdminSettings.MalformedTimeStillSchedules | admin/admin.php:120-150 | a time `timeToSeconds` rejects never yields "Incorrect time"; the call still acts and normalises, and in the daily modes, when no indexer call throws, it ends with `enableAutoRebuild(false)` and a success notice showing the raw string |
| AdminSettings.IncorrectTimeOnlyFromDisplay | admin/admin.php:121-130 | "Incorrect time." is added if and only if the time parsed and the localised display returned `false` |
| AdminSettings.CallsStopOnlyAtThrow | admin/admin.php:132-163 | on a fresh page object with a working display, the calls made are a prefix of the planned `rebuildNow` (immediate modes only) and schedule call; a shorter list ends at a call that threw; when no planned call throws, all of them are made, whatever an unplanned call would do |
| AdminSettings.UnplannedThrowIsIgnored | admin/admin.php:143-150 | `{auto_rebuild: on, rebuild_time: "00:25"}` on a fresh page object calls exactly `enableAutoRebuild(1500)`, even when `rebuildNow` would throw |
| AdminSettings.ThrowStillGuards | admin/admin.php:137-166 | when an indexer call throws it is the last call made, the last notice is its error, the guard is still set and the record is still normalised |
| AdminSettings.RepeatCallIsQuiet | admin/admin.php:27-28 | a second call after the guard was set makes no indexer call, returns the same record, and repeats the first call's notices when the first threw nothing |
| AdminSettings.ResanitizeReturnedRecord | admin/admin.php:27-28 | sanitising again the record the first call returned (the repeated call the comment at line 27 warns of, which seeding the default option at lines 89-95 is meant to prevent) makes no indexer call, returns that record unchanged, and reports only the success notice: the info notice of `nowon`/`nowoff` is gone |
| AdminSettings.MalformedTimeReachesEnable | admin/admin.php:121-150 | with `auto_rebuild = on` and `rebuild_time = "bad"` the written code calls exactly `enableAutoRebuild(false)` |
| AdminSettings.CheckedRejectsMalformed | admin/admin.php:123-130 | with the documented formatter a bad time gives only "Incorrect time.", no indexer call, no guard change and the record as submitted |
| AdminSettings.CheckedAgreesOnValidTime | admin/admin.php:121-123 | on a time `timeToSeconds` accepts, the documented and the written formatter lead to the same outcome |
| AdminSettings.Admin.constructor | admin/admin.php:28 | a new page object has the guard clear, no notices and no indexer calls |
| AdminSettings.Admin.Invoke | admin/admin.php:139 | one indexer call (`rebuildNow`, `enableAutoRebuild`, `disableAutoRebuild` at lines 139, 150, 158) is appended to the call log and throws what the environment says |
| AdminSettings.Admin.AddNotice | admin/admin.php:124-127 | one `add_settings_error` call appends exactly its notice to the object's notice list |
| AdminSettings.Admin.StartRebuild | admin/admin.php:132-141 | the info notice is added for the immediate modes; `rebuildNow` is called, and the local flag set, only when the guard field is clear |
| AdminSettings.Admin.ChangeSchedule | admin/admin.php:143-160 | one success notice (scheduled-for with the display, or disabled) is added; the matching enable/disable call is made only when the guard field is clear |
| AdminSettings.Admin.RunOperations | admin/admin.php:117-163 | the `try` block with its `catch` adds exactly the calls and notices of `Respond` and returns its local flag |
| AdminSettings.Admin.SanitizeSettings | admin/admin.php:110-176 | the returned record, the new notices and calls and the new guard are those of `Sanitize` with the guard on entry; the object invariant (guard set exactly when a call has been made) is kept; a set guard stays set and blocks every call |

## Left out

- HTML rendering (`render_*`), menu and settings registration, the default
  option seeded by `addTimingSection`, stylesheet enqueueing and
  `action_link`: platform glue with no behaviour of the schedule logic.
- Option storage (`get_option`, `add_option`) and the internals of
  `add_settings_error`: a notice is modelled as its level and an abstract
  text. The setting slug, the `rebuild` code, translation, `sprintf` and
  escaping are left out.
- `wp_date` with the site's time format and time zone: it is the parameter
  `localize`, whose result is free.
- The indexer (`includes/indexer.php` is not part of this model). Its three
  methods are events in a ghost log, and whether one throws is the parameter
  `throws`. PHP `Error` throwables, which the `catch (Exception)` would not
  catch, are not modelled.
- `require_once` and `Indexer::getInstance()` (lines 112-113), which run
  outside the `try`.
- Input values other than strings. A `null` value (for which `isset` is
  false) and array values are not modelled, and neither is a non-array
  `$input`. The record is a map from strings to strings.
- Strings are sequences of characters, not PHP byte strings. This does not
  change what `timeToSeconds` accepts, since every accepted string is ASCII.
- The `catch` inside `timeToSeconds` (lines 204-206): nothing in its `try`
  throws, so it has no counterpart.
- AdminSettings.Admin.SanitizeSettings: the class models the code as
  written, with `FormatTime`. The corrected behaviour of the Findings row is
  `SanitizeChecked`, and the page object does not use it.

## Findings

| source | as written | input that shows it | evidently intended | confidence | as-written member | corrected member |
|---|---|---|---|---|---|---|
| admin/admin.php:183-188 | `formatTime` returns the raw `$time` when `timeToSeconds` fails, so the `=== false` test at line 123 never catches a malformed time, and the daily modes call `enableAutoRebuild(false)` | `auto_rebuild = "on"`, `rebuild_time = "bad"` on a fresh page object | return `false` for a bogus time, as its doc comment (line 181) says, so that the sanitiser reports "Incorrect time." and calls nothing | high; not executed | AdminSettings.MalformedTimeReachesEnable | AdminSettings.CheckedRejectsMalformed |

=== FILE: admin.dfy ===
/**
 * The rebuild-schedule part of the plugin's settings page: the settings
 * sanitiser that decodes the submitted rebuild mode, validates the rebuild
 * time, calls the indexer (rebuild now, enable or disable the daily
 * rebuild) in at most one sanitiser call per page object, reports what it did as settings
 * notices, and returns the settings with the one-shot modes collapsed.
 */
module AdminSettings {
  import opened Wrappers
  import opened RebuildTime

  /** The submitted option record: form field name to value. */
  type Settings = map<string, string>

  const AutoRebuildKey := "auto_rebuild"
  const RebuildTimeKey := "rebuild_time"

  /** The `type` argument of `add_settings_error`. */
  datatype Level = Error | Info | Success

  /** What a settings notice says, before translation and escaping. */
  datatype Text =
    | IncorrectTime
    | RebuildStarting
    | ScheduledFor(display: string)
    | RebuildDisabled
    | Thrown(message: string)

  datatype Notice = Notice(level: Level, text: Text)

  /** A call into the indexer; `EnableAutoRebuild(None)` is a call with `false`. */
  datatype IndexerCall =
    | RebuildNow
    | EnableAutoRebuild(at: Option<int>)
    | DisableAutoRebuild

  // ---------------------------------------------------------------------
  // Decoding the submitted record
  // ---------------------------------------------------------------------

  /** `$autoRebuild`: the flag is `on` or `nowon`. */
  predicate AutoRebuild(input: Settings)
    ensures AutoRebuild(input) <==> AutoRebuildKey in input && Collapse(input[AutoRebuildKey]) == "on"
  {
    AutoRebuildKey in input && (input[AutoRebuildKey] == "on" || input[AutoRebuildKey] == "nowon")
  }

  /** `$nowRebuild`: the flag is `nowoff` or `nowon`. */
  predicate NowRebuild(input: Settings)
    ensures NowRebuild(input) <==> AutoRebuildKey in input && Collapse(input[AutoRebuildKey]) != input[AutoRebuildKey]
  {
    AutoRebuildKey in input && (input[AutoRebuildKey] == "nowoff" || input[AutoRebuildKey] == "nowon")
  }

  /** `$time`: the submitted time, or the empty string when absent. */
  function RebuildTimeOf(input: Settings): (r: string)
    ensures RebuildTimeKey in input ==> r == input[RebuildTimeKey]
    ensures RebuildTimeKey !in input ==> TimeToSeconds(r).None?
  {
    if RebuildTimeKey in input then input[RebuildTimeKey] else ""
  }

  /** The flag value to persist: the one-shot modes collapse to their daily/never counterpart. */
  function Collapse(v: string): (r: string)
    ensures r != "nowon" && r != "nowoff"
    ensures r == (if v == "nowon" then "on" else if v == "nowoff" then "off" else v)
  {
    var i := if v == "nowon" then "on" else v;
    if i == "nowoff" then "off" else i
  }

  /** The record handed back for storage ("persist only on and off"). */
  function Normalize(input: Settings): (r: Settings)
    ensures r.Keys == input.Keys
    ensures forall k :: k in input && k != AutoRebuildKey ==> r[k] == input[k]
    ensures AutoRebuildKey in input ==> r[AutoRebuildKey] == Collapse(input[AutoRebuildKey])
    ensures AutoRebuildKey in r ==> r[AutoRebuildKey] != "nowon" && r[AutoRebuildKey] != "nowoff"
  {
    if AutoRebuildKey in input then input[AutoRebuildKey := Collapse(input[AutoRebuildKey])] else input
  }

  /** Normalising twice is normalising once. */
  lemma NormalizeIdempotent(input: Settings)
    ensures Normalize(Normalize(input)) == Normalize(input)
  {
  }

  /** A normalised record keeps its daily/never decision and never asks for an immediate rebuild. */
  lemma NormalizeKeepsSchedule(input: Settings)
    ensures AutoRebuild(Normalize(input)) == AutoRebuild(input)
    ensures !NowRebuild(Normalize(input))
    ensures RebuildTimeOf(Normalize(input)) == RebuildTimeOf(input)
  {
  }

  // ---------------------------------------------------------------------
  // What one call of the sanitiser does
  // ---------------------------------------------------------------------

  /** The effect of one `sanitize_settings` call. */
  datatype Outcome = Outcome(
    output: Settings,            // the returned record
    calls: seq<IndexerCall>,     // indexer calls made, in order (a throwing call included)
    notices: seq<Notice>,        // settings notices appended, in order
    acted: bool)                 // the local `$didAnOperation` at the end

  /** The calls one sanitiser call can make: an optional rebuild, then one schedule change, cut at a throw. */
  predicate WellShaped(calls: seq<IndexerCall>) {
    |calls| <= 2
    && (forall i :: 0 < i < |calls| ==> calls[i] != RebuildNow)
    && (forall i :: 0 <= i < |calls| - 1 ==> calls[i] == RebuildNow)
  }

  /** The calls a submission asks for: `rebuildNow` in the immediate modes, then the schedule call. */
  function PlannedCalls(input: Settings): seq<IndexerCall> {
    (if NowRebuild(input) then [RebuildNow] else []) + [ScheduleCall(input)]
  }

  /** The daily-schedule call the submitted mode asks for. */
  function ScheduleCall(input: Settings): (c: IndexerCall)
    ensures c != RebuildNow
    ensures c.EnableAutoRebuild? <==> AutoRebuild(input)
    ensures c.EnableAutoRebuild? ==> c.at == TimeToSeconds(RebuildTimeOf(input))
  {
    if AutoRebuild(input) then EnableAutoRebuild(TimeToSeconds(RebuildTimeOf(input))) else DisableAutoRebuild
  }

  function ScheduleNotice(input: Settings, display: string): Notice {
    if AutoRebuild(input) then Notice(Success, ScheduledFor(display)) else Notice(Success, RebuildDisabled)
  }

  function ThrownNotice(ex: Option<string>): seq<Notice> {
    if ex.Some? then [Notice(Error, Thrown(ex.value))] else []
  }

  /**
   * One sanitiser call, given the guard field on entry, the result of the
   * time formatter, and which indexer calls throw (and with what message).
   */
  function Respond(input: Settings, didAny: bool, timeString: Option<string>,
                   throws: IndexerCall -> Option<string>): (o: Outcome)
    ensures o.acted <==> o.calls != []
    ensures didAny ==> o.calls == []
    ensures WellShaped(o.calls)
    ensures timeString.None? ==> o == Outcome(input, [], [Notice(Error, IncorrectTime)], false)
    ensures timeString.Some? ==> o.output == Normalize(input)
    ensures timeString.Some? && !didAny ==>
      o.calls <= PlannedCalls(input)
      && (o.calls != PlannedCalls(input) ==> o.calls != [] && throws(o.calls[|o.calls| - 1]).Some?)
  {
    if timeString.None? then
      Outcome(input, [], [Notice(Error, IncorrectTime)], false)
    else
      var started := if NowRebuild(input) then [Notice(Info, RebuildStarting)] else [];
      var nowCalls := if NowRebuild(input) && !didAny then [RebuildNow] else [];
      var nowThrew := if nowCalls != [] then throws(RebuildNow) else None;
      if nowThrew.Some? then
        Outcome(Normalize(input), nowCalls, started + ThrownNotice(nowThrew), true)
      else
        var schedCalls := if didAny then [] else [ScheduleCall(input)];
        var schedThrew := if didAny then None else throws(ScheduleCall(input));
        Outcome(Normalize(input), nowCalls + schedCalls,
                started + [ScheduleNotice(input, timeString.value)] + ThrownNotice(schedThrew),
                !didAny)
  }

  /** `sanitize_settings` as written, with `formatTime` returning the raw string on a bad time. */
  function Sanitize(input: Settings, didAny: bool, localize: int -> Option<string>,
                    throws: IndexerCall -> Option<string>): (o: Outcome)
    ensures o.notices != []
    ensures didAny ==> o.calls == []
    ensures TimeToSeconds(RebuildTimeOf(input)).None? ==> o.acted == !didAny && o.output == Normalize(input)
    ensures FormatTime(RebuildTimeOf(input), localize).Some? ==> o.acted == !didAny && o.output == Normalize(input)
  {
    Respond(input, didAny, FormatTime(RebuildTimeOf(input), localize), throws)
  }

  /** `sanitize_settings` with the documented `formatTime` (`false` on a bad time). */
  function SanitizeChecked(input: Settings, didAny: bool, localize: int -> Option<string>,
                           throws: IndexerCall -> Option<string>): (o: Outcome)
    ensures TimeToSeconds(RebuildTimeOf(input)).None? ==>
      o == Outcome(input, [], [Notice(Error, IncorrectTime)], false)
    ensures TimeToSeconds(RebuildTimeOf(input)).Some? ==> o == Sanitize(input, didAny, localize, throws)
  {
    Respond(input, didAny, FormatTimeChecked(RebuildTimeOf(input), localize), throws)
  }

  /** No indexer call throws. */
  ghost predicate NeverThrows(throws: IndexerCall -> Option<string>) {
    forall c :: throws(c).None?
  }

  // ---------------------------------------------------------------------
  // Properties of one call
  // ---------------------------------------------------------------------

  /**
   * On a fresh page object, when neither call the submission asks for
   * throws, the flag alone decides the
   * indexer calls: `nowon` rebuilds then enables, `nowoff` rebuilds then
   * disables, `on` enables, and anything else (absent included) disables.
   * The notices are the info notice for the immediate modes followed by one
   * success notice.
   */
  lemma FirstCallSequence(input: Settings, localize: int -> Option<string>,
                          throws: IndexerCall -> Option<string>)
    requires NowRebuild(input) ==> throws(RebuildNow).None?
    requires throws(ScheduleCall(input)).None?
    requires FormatTime(RebuildTimeOf(input), localize).Some?
    ensures var o := Sanitize(input, false, localize, throws);
      var enable := EnableAutoRebuild(TimeToSeconds(RebuildTimeOf(input)));
      var flag := if AutoRebuildKey in input then Some(input[AutoRebuildKey]) else None;
      && o.acted
      && o.calls == (if flag == Some("nowon") then [RebuildNow, enable]
                     else if flag == Some("nowoff") then [RebuildNow, DisableAutoRebuild]
                     else if flag == Some("on") then [enable]
                     else [DisableAutoRebuild])
      && o.notices == (if NowRebuild(input) then [Notice(Info, RebuildStarting)] else [])
                      + [if AutoRebuild(input)
                         then Notice(Success, ScheduledFor(FormatTime(RebuildTimeOf(input), localize).value))
                         else Notice(Success, RebuildDisabled)]
      && o.output == Normalize(input)
  {
  }

  /**
   * A malformed time does not produce "Incorrect time": the call goes on,
   * and in the daily modes it enables the rebuild with `false` and shows the
   * raw string in its success notice.
   */
  lemma MalformedTimeStillSchedules(input: Settings, localize: int -> Option<string>,
                                    throws: IndexerCall -> Option<string>)
    requires TimeToSeconds(RebuildTimeOf(input)).None?
    ensures var o := Sanitize(input, false, localize, throws);
      && Notice(Error, IncorrectTime) !in o.notices
      && o.acted
      && o.output == Normalize(input)
      && (AutoRebuild(input) && NeverThrows(throws) ==>
            o.calls[|o.calls| - 1] == EnableAutoRebuild(None)
            && Notice(Success, ScheduledFor(RebuildTimeOf(input))) in o.notices)
  {
  }

  /** "Incorrect time" is reported only when the time parsed and the localised display failed. */
  lemma IncorrectTimeOnlyFromDisplay(input: Settings, didAny: bool,
                                     localize: int -> Option<string>,
                                     throws: IndexerCall -> Option<string>)
    ensures var o := Sanitize(input, didAny, localize, throws);
      Notice(Error, IncorrectTime) in o.notices <==>
        (TimeToSeconds(RebuildTimeOf(input)).Some?
         && localize(TimeToSeconds(RebuildTimeOf(input)).value).None?)
  {
  }

  /**
   * On a fresh page object with a working display, the calls made are the
   * planned ones, and the run stops short of them only at a call that threw.
   * A call the submission does not ask for never matters, even if it would
   * throw.
   */
  lemma CallsStopOnlyAtThrow(input: Settings, localize: int -> Option<string>,
                             throws: IndexerCall -> Option<string>)
    requires FormatTime(RebuildTimeOf(input), localize).Some?
    ensures var o := Sanitize(input, false, localize, throws);
      && o.calls <= PlannedCalls(input)
      && (o.calls != PlannedCalls(input) ==> o.calls != [] && throws(o.calls[|o.calls| - 1]).Some?)
      && ((forall c :: c in PlannedCalls(input) ==> throws(c).None?) ==> o.calls == PlannedCalls(input))
  {
  }

  /** The example from the daily mode: `rebuildNow` would throw, but `on` never calls it. */
  lemma UnplannedThrowIsIgnored(localize: int -> Option<string>, throws: IndexerCall -> Option<string>)
    requires throws(EnableAutoRebuild(Some(1500))).None?
    requires localize(1500).Some?
    ensures var input := map[AutoRebuildKey := "on", RebuildTimeKey := "00:25"];
      Sanitize(input, false, localize, throws).calls == [EnableAutoRebuild(Some(1500))]
  {
    TimeToSecondsExamples();
  }

  /**
   * A throwing indexer call ends with an error notice, yet the guard is
   * still set and the returned record is still normalised.
   */
  lemma ThrowStillGuards(input: Settings, localize: int -> Option<string>,
                         throws: IndexerCall -> Option<string>, c: IndexerCall)
    requires c in Sanitize(input, false, localize, throws).calls
    requires throws(c).Some?
    ensures var o := Sanitize(input, false, localize, throws);
      && o.acted
      && o.output == Normalize(input)
      && c == o.calls[|o.calls| - 1]
      && o.notices[|o.notices| - 1] == Notice(Error, Thrown(throws(c).value))
  {
  }

  /**
   * A repeat call after the guard is set makes no indexer call, returns the
   * same record, and (when the first call threw nothing) repeats the first
   * call's notices.
   */
  lemma RepeatCallIsQuiet(input: Settings, localize: int -> Option<string>,
                          first: IndexerCall -> Option<string>,
                          again: IndexerCall -> Option<string>)
    ensures var o1 := Sanitize(input, false, localize, first);
      var o2 := Sanitize(input, o1.acted, localize, again);
      && (o1.acted ==> o2.calls == [])
      && o2.output == o1.output
      && (NeverThrows(first) ==> o2.notices == o1.notices)
  {
  }

  /**
   * The platform's second sanitiser run sanitises the record the first run
   * returned: it makes no indexer call, returns that record unchanged, and
   * reports only the success notice (the info notice of a `nowon` or
   * `nowoff` submission is gone, since the record now says `on` or `off`).
   */
  lemma {:induction false} ResanitizeReturnedRecord(input: Settings, localize: int -> Option<string>,
                                                    first: IndexerCall -> Option<string>,
                                                    again: IndexerCall -> Option<string>)
    requires FormatTime(RebuildTimeOf(input), localize).Some?
    ensures var o1 := Sanitize(input, false, localize, first);
      var o2 := Sanitize(o1.output, o1.acted, localize, again);
      && o2.calls == []
      && o2.output == o1.output
      && o2.notices == [ScheduleNotice(input, FormatTime(RebuildTimeOf(input), localize).value)]
  {
    NormalizeIdempotent(input);
    NormalizeKeepsSchedule(input);
  }

  // ---------------------------------------------------------------------
  // The intended behaviour with the documented formatter
  // ---------------------------------------------------------------------

  /** A concrete submission where the written code enables the daily rebuild with `false`. */
  lemma MalformedTimeReachesEnable(localize: int -> Option<string>, throws: IndexerCall -> Option<string>)
    requires NeverThrows(throws)
    ensures var input := map[AutoRebuildKey := "on", RebuildTimeKey := "bad"];
      Sanitize(input, false, localize, throws).calls == [EnableAutoRebuild(None)]
  {
  }

  /**
   * With the documented formatter a malformed time is rejected with
   * "Incorrect time": no indexer call, the guard untouched, the record
   * returned as submitted.
   */
  lemma CheckedRejectsMalformed(input: Settings, didAny: bool,
                                localize: int -> Option<string>,
                                throws: IndexerCall -> Option<string>)
    requires TimeToSeconds(RebuildTimeOf(input)).None?
    ensures SanitizeChecked(input, didAny, localize, throws)
      == Outcome(input, [], [Notice(Error, IncorrectTime)], false)
  {
  }

  /** On a well-formed time both formatters lead to the same call. */
  lemma CheckedAgreesOnValidTime(input: Settings, didAny: bool,
                                 localize: int -> Option<string>,
                                 throws: IndexerCall -> Option<string>)
    requires TimeToSeconds(RebuildTimeOf(input)).Some?
    ensures SanitizeChecked(input, didAny, localize, throws) == Sanitize(input, didAny, localize, throws)
  {
  }

  // ---------------------------------------------------------------------
  // The settings page object
  // ---------------------------------------------------------------------

  /**
   * The settings page object. `didAnyOperations` is the guard against the
   * platform running the sanitiser twice for one submission; `calls` logs
   * the indexer calls made through this object and `notices` the settings
   * notices it has added.
   */
  class Admin {
    var didAnyOperations: bool
    var notices: seq<Notice>
    ghost var calls: seq<IndexerCall>

    /** The guard is set exactly when an indexer call has been made, and calls come from one sanitiser call. */
    ghost predicate Valid()
      reads this
    {
      didAnyOperations == (calls != []) && WellShaped(calls)
    }

    constructor ()
      ensures Valid()
      ensures !didAnyOperations && notices == [] && calls == []
    {
      didAnyOperations := false;
      notices := [];
      calls := [];
    }

    /** One indexer call, which may throw. */
    method Invoke(call: IndexerCall, throws: IndexerCall -> Option<string>) returns (thrown: Option<string>)
      modifies this`calls
      ensures calls == old(calls) + [call]
      ensures thrown == throws(call)
    {
      calls := calls + [call];
      thrown := throws(call);
    }

    method AddNotice(level: Level, text: Text)
      modifies this`notices
      ensures notices == old(notices) + [Notice(level, text)]
    {
      notices := notices + [Notice(level, text)];
    }

    /** The immediate-rebuild step of the `try` block: announce it, and call the indexer unless guarded. */
    method StartRebuild(input: Settings, throws: IndexerCall -> Option<string>)
      returns (didAnOperation: bool, thrown: Option<string>)
      modifies this`calls, this`notices
      ensures didAnOperation == (NowRebuild(input) && !didAnyOperations)
      ensures calls == old(calls) + (if didAnOperation then [RebuildNow] else [])
      ensures notices == old(notices) + (if NowRebuild(input) then [Notice(Info, RebuildStarting)] else [])
      ensures thrown == if didAnOperation then throws(RebuildNow) else None
    {
      didAnOperation, thrown := false, None;
      var nowRebuild := AutoRebuildKey in input
        && (input[AutoRebuildKey] == "nowoff" || input[AutoRebuildKey] == "nowon");
      if nowRebuild {
        AddNotice(Info, RebuildStarting);
        if !didAnyOperations {
          didAnOperation := true;
          thrown := Invoke(RebuildNow, throws);
        }
      }
    }

    /** The schedule step of the `try` block: announce it, and enable or disable unless guarded. */
    method ChangeSchedule(input: Settings, timeString: string, throws: IndexerCall -> Option<string>)
      returns (didAnOperation: bool, thrown: Option<string>)
      modifies this`calls, this`notices
      ensures didAnOperation == !didAnyOperations
      ensures calls == old(calls) + (if didAnOperation then [ScheduleCall(input)] else [])
      ensures notices == old(notices) + [ScheduleNotice(input, timeString)]
      ensures thrown == if didAnOperation then throws(ScheduleCall(input)) else None
    {
      didAnOperation, thrown := false, None;
      var autoRebuild := AutoRebuildKey in input
        && (input[AutoRebuildKey] == "on" || input[AutoRebuildKey] == "nowon");
      var time := if RebuildTimeKey in input then input[RebuildTimeKey] else "";
      if autoRebuild {
        AddNotice(Success, ScheduledFor(timeString));
        if !didAnyOperations {
          didAnOperation := true;
          thrown := Invoke(EnableAutoRebuild(TimeToSeconds(time)), throws);
        }
      } else {
        AddNotice(Success, RebuildDisabled);
        if !didAnyOperations {
          didAnOperation := true;
          thrown := Invoke(DisableAutoRebuild, throws);
        }
      }
    }

    /**
     * The `try` block of `sanitize_settings` once the time has been
     * formatted, with its `catch`: the first exception ends the block and
     * adds an error notice. Returns the local `$didAnOperation`.
     */
    method RunOperations(input: Settings, timeString: string, throws: IndexerCall -> Option<string>)
      returns (didAnOperation: bool)
      modifies this`calls, this`notices
      ensures var o := Respond(input, didAnyOperations, Some(timeString), throws);
        && calls == old(calls) + o.calls
        && notices == old(notices) + o.notices
        && didAnOperation == o.acted
    {
      var thrown;
      didAnOperation, thrown := StartRebuild(input, throws);
      if thrown.Some? {
        AddNotice(Error, Thrown(thrown.value));
        return;
      }
      var scheduled;
      scheduled, thrown := ChangeSchedule(input, timeString, throws);
      didAnOperation := didAnOperation || scheduled;
      if thrown.Some? {
        AddNotice(Error, Thrown(thrown.value));
      }
    }

    /**
     * `sanitize_settings`: `localize` is the site's time display, `throws`
     * says which indexer calls throw. The guard, once set, stays set, and
     * the calls made are those of `Sanitize` with the guard on entry.
     */
    method SanitizeSettings(input: Settings, localize: int -> Option<string>,
                            throws: IndexerCall -> Option<string>) returns (output: Settings)
      requires Valid()
      modifies this
      ensures Valid()
      ensures var o := Sanitize(input, old(didAnyOperations), localize, throws);
        && output == o.output
        && calls == old(calls) + o.calls
        && notices == old(notices) + o.notices
        && didAnyOperations == (old(didAnyOperations) || o.acted)
      ensures old(didAnyOperations) ==> didAnyOperations && calls == old(calls)
    {
      var time := if RebuildTimeKey in input then input[RebuildTimeKey] else "";
      var timeString := FormatTime(time, localize);

      if timeString.None? {
        AddNotice(Error, IncorrectTime);
        return input;
      }

      var didAnOperation := RunOperations(input, timeString.value, throws);
      if didAnOperation {
        didAnyOperations := true;
      }

      // persist only on and off
      output := input;
      if AutoRebuildKey in input {
        var i := input[AutoRebuildKey];
        i := if i == "nowon" then "on" else i;
        i := if i == "nowoff" then "off" else i;
        output := input[AutoRebuildKey := i];
      }
    }
  }
}

=== FILE: rebuild_time.dfy ===
/**
 * The daily rebuild time: parsing an `HH:MM` string into seconds since
 * midnight, and turning it into the display string shown in the settings
 * notice. `None` stands for PHP's `false`.
 */
module RebuildTime {
  import opened Wrappers

  /** WordPress's MINUTE_IN_SECONDS, HOUR_IN_SECONDS and DAY_IN_SECONDS. */
  const MinuteInSeconds := 60
  const HourInSeconds := 3600
  const DayInSeconds := 86400

  /** PCRE's `\d` without the `u` modifier: an ASCII digit. */
  predicate IsDigit(c: char) {
    '0' <= c <= '9'
  }

  function DigitValue(c: char): (d: int)
    requires IsDigit(c)
    ensures 0 <= d < 10
  {
    c as int - '0' as int
  }

  /**
   * `preg_match('/^\d\d:\d\d$/', s)`. Without the `D` modifier PCRE's `$`
   * also matches just before one final newline, so a sixth character "\n"
   * is accepted.
   */
  predicate MatchesClockPattern(s: string)
    ensures MatchesClockPattern(s) ==> forall i :: 0 <= i < |s| ==> s[i] as int < 128
  {
    (|s| == 5 || (|s| == 6 && s[5] == '\n'))
    && IsDigit(s[0]) && IsDigit(s[1]) && s[2] == ':' && IsDigit(s[3]) && IsDigit(s[4])
  }

  /** `intval` of a two-digit substring: leading zeros are decimal, not octal. */
  function FieldValue(tens: char, units: char): (v: int)
    requires IsDigit(tens) && IsDigit(units)
    ensures 0 <= v < 100
  {
    10 * DigitValue(tens) + DigitValue(units)
  }

  /**
   * `timeToSeconds`: the number of seconds since midnight written by `s`,
   * or `None` (PHP's `false`). The minutes field is not limited to 59; only
   * the total is bounded by one day.
   */
  function TimeToSeconds(s: string): (r: Option<int>)
    ensures r.Some? ==> MatchesClockPattern(s)
    ensures r.Some? ==> 0 <= r.value < DayInSeconds && r.value % MinuteInSeconds == 0
  {
    if MatchesClockPattern(s) then
      var ts := FieldValue(s[0], s[1]) * HourInSeconds + FieldValue(s[3], s[4]) * MinuteInSeconds;
      if 0 <= ts < DayInSeconds then Some(ts) else None
    else
      None
  }

  // ---------------------------------------------------------------------
  // An independent description of the accepted strings: a clock face
  // printed with two zero-padded fields.
  // ---------------------------------------------------------------------

  /** A number below 100 written as exactly two decimal digits. */
  function Pad2(n: nat): (s: string)
    requires n < 100
    ensures |s| == 2 && IsDigit(s[0]) && IsDigit(s[1]) && FieldValue(s[0], s[1]) == n
  {
    [('0' as int + n / 10) as char, ('0' as int + n % 10) as char]
  }

  /** The string `HH:MM` for two fields below 100. */
  function Clock(h: nat, m: nat): (s: string)
    requires h < 100 && m < 100
    ensures MatchesClockPattern(s) && |s| == 5
    ensures FieldValue(s[0], s[1]) == h && FieldValue(s[3], s[4]) == m
  {
    Pad2(h) + ":" + Pad2(m)
  }

  /** Two digits are the padding of their own value. */
  lemma PadOfField(tens: char, units: char)
    requires IsDigit(tens) && IsDigit(units)
    ensures Pad2(FieldValue(tens, units)) == [tens, units]
  {
    var v := FieldValue(tens, units);
    assert v / 10 == DigitValue(tens) && v % 10 == DigitValue(units);
  }

  /** Printing a clock face and parsing it back gives its seconds, when within one day. */
  lemma ClockRoundTrip(h: nat, m: nat, newline: bool)
    requires h < 100 && m < 100
    ensures var s := if newline then Clock(h, m) + "\n" else Clock(h, m);
      TimeToSeconds(s) == if h * 3600 + m * 60 < 86400 then Some(h * 3600 + m * 60) else None
  {
    var c := Clock(h, m);
    var s := if newline then c + "\n" else c;
    assert s[..5] == c;
    assert s[0] == c[0] && s[1] == c[1] && s[2] == c[2] && s[3] == c[3] && s[4] == c[4];
  }

  /** Every accepted string is a printed clock face, possibly followed by one newline. */
  lemma AcceptedIsClock(s: string)
    requires TimeToSeconds(s).Some?
    ensures var h, m := FieldValue(s[0], s[1]), FieldValue(s[3], s[4]);
      (s == Clock(h, m) || s == Clock(h, m) + "\n")
      && TimeToSeconds(s).value == h * 3600 + m * 60
  {
    var h, m := FieldValue(s[0], s[1]), FieldValue(s[3], s[4]);
    PadOfField(s[0], s[1]);
    PadOfField(s[3], s[4]);
    assert s[..5] == Clock(h, m);
    if |s| == 6 {
      assert s == s[..5] + "\n";
    } else {
      assert s == s[..5];
    }
  }

  /**
   * `timeToSeconds(s)` returns `n` exactly when `s` is two digits, a colon
   * and two digits (optionally followed by one newline), `n` is
   * hours * 3600 + minutes * 60 of those fields, and `n` is below one day.
   */
  lemma {:induction false} TimeToSecondsExactly(s: string, n: int)
    ensures TimeToSeconds(s) == Some(n) <==>
      exists h: nat, m: nat :: h < 100 && m < 100
        && (s == Clock(h, m) || s == Clock(h, m) + "\n")
        && n == h * 3600 + m * 60 && n < 86400
  {
    if TimeToSeconds(s) == Some(n) {
      AcceptedIsClock(s);
      var h, m := FieldValue(s[0], s[1]), FieldValue(s[3], s[4]);
      assert h < 100 && m < 100 && (s == Clock(h, m) || s == Clock(h, m) + "\n");
    }
    if exists h: nat, m: nat :: h < 100 && m < 100
        && (s == Clock(h, m) || s == Clock(h, m) + "\n")
        && n == h * 3600 + m * 60 && n < 86400
    {
      var h: nat, m: nat :| h < 100 && m < 100
        && (s == Clock(h, m) || s == Clock(h, m) + "\n")
        && n == h * 3600 + m * 60 && n < 86400;
      ClockRoundTrip(h, m, s != Clock(h, m));
    }
  }

  /**
   * Which clock faces are accepted: every hour up to 22 with any minutes
   * field up to 99 ("00:99" is 5940 seconds), hour 23 only with minutes
   * below 60 ("23:60" is a full day), and no hour of 24 or more.
   */
  lemma {:induction false} ClockAccepted(h: nat, m: nat)
    requires h < 100 && m < 100
    ensures TimeToSeconds(Clock(h, m)).Some? <==> h < 23 || (h == 23 && m < 60)
    ensures TimeToSeconds(Clock(h, m)).Some? ==> TimeToSeconds(Clock(h, m)).value == h * 3600 + m * 60
  {
    ClockRoundTrip(h, m, false);
  }

  /** Worked values of `timeToSeconds`. */
  lemma TimeToSecondsExamples()
    ensures TimeToSeconds("16:42") == Some(60120)
    ensures TimeToSeconds("00:25") == Some(1500)
    ensures TimeToSeconds("00:99") == Some(5940)
    ensures TimeToSeconds("12:34\n") == Some(45240)
    ensures TimeToSeconds("23:60") == None
    ensures TimeToSeconds("24:00") == None
    ensures TimeToSeconds("9:30") == None
    ensures TimeToSeconds("") == None
  {
    ClockRoundTrip(16, 42, false);
    ClockRoundTrip(0, 25, false);
    ClockRoundTrip(0, 99, false);
    ClockRoundTrip(12, 34, true);
    ClockRoundTrip(23, 60, false);
    ClockRoundTrip(24, 0, false);
  }

  // ---------------------------------------------------------------------
  // formatTime
  // ---------------------------------------------------------------------

  /**
   * `formatTime` as written: the localised display of the parsed time
   * (`localize` stands for `wp_date` with the site's time format, which may
   * itself return `false`), but the RAW input when parsing fails.
   */
  function FormatTime(time: string, localize: int -> Option<string>): (r: Option<string>)
    ensures TimeToSeconds(time).None? ==> r == Some(time)
    ensures r.None? ==> TimeToSeconds(time).Some? && localize(TimeToSeconds(time).value).None?
  {
    match TimeToSeconds(time)
    case None => Some(time)
    case Some(ts) => localize(ts)
  }

  /**
   * `formatTime` as its documentation describes it: `false` when the input
   * is bogus, otherwise the localised display.
   */
  function FormatTimeChecked(time: string, localize: int -> Option<string>): (r: Option<string>)
    ensures TimeToSeconds(time).None? ==> r.None?
    ensures TimeToSeconds(time).Some? ==> r == localize(TimeToSeconds(time).value)
  {
    match TimeToSeconds(time)
    case None => None
    case Some(ts) => localize(ts)
  }

  /** The two formatters differ exactly on malformed times, where only the written one answers. */
  lemma FormatTimeDiscrepancy(time: string, localize: int -> Option<string>)
    ensures FormatTime(time, localize) != FormatTimeChecked(time, localize) <==> TimeToSeconds(time).None?
  {
  }
}

=== FILE: wrappers.dfy ===
/** The optional value used for PHP's `int|false` and `string|false` results. */
module Wrappers {
  datatype Option<+T> = None | Some(value: T)
}
